=== FILE: README.md ===
# OTP verification form and image upload service, modelled in Dafny

This project models two small parts of an event-venue booking application.

1. **The OTP verification controller** (`components/auth/otp-verification-form.tsx`).
   This is the state machine inside the signup form's one-time-passcode screen:
   - code entry keeps digits only, at most six;
   - the submit button is enabled only for a full code with no Verify in flight (a pending Resend does not disable it);
   - the Verify response (a free-text `message` and an optional `token`) is classified by
     case-insensitive substring tests for "verified", "success" and "awaiting";
   - an automatic Login follows, then a delayed redirect to the role's dashboard;
   - a 30-second resend cooldown ticks down once per second;
   - a back button and a "Return to Login" button decide where to go.

   React state is the immutable `OtpForm.State`. Each handler is a pure function that returns
   the new state and the calls it makes (`Effect`: Verify, Login, Resend, a navigation, or a
   navigation after a delay). The answers of the Verify, Login and Resend collaborators are
   parameters. The two async handlers are modelled in two ways:
   - whole runs, `Submit` and `Resend`, where nothing else happens while a call is pending;
   - two phases (`BeginSubmit`/`FinishSubmit`, `BeginResend`/`FinishResend`) driven by the
     event machine `Step`/`Run`. There, typing, timer ticks and the other handler can
     interleave with a pending call.

   Lemmas show that the two views agree.

2. **The upload service** (`FileUploadService.java`): `getFileExtension`, `validateFile`
   (empty check, then the 10 MiB cap, then a case-insensitive whitelist), the URL that
   `uploadImage` returns, and the order-preserving filter loop of `uploadImages`.

Shared string helpers live in `Text`: ASCII lower-casing, the digit filter, substring search,
`lastIndexOf` and `equalsIgnoreCase`. The option and result types live in `Wrappers`.

Behaviour pinned down by the proofs:
- The failure test runs before the vendor "awaiting" test. A vendor message that says only
  "Awaiting admin approval", with no token, is therefore shown as an error.
- A token alone avoids the failure branch, whatever the message says.
- The success test is a bare substring test. "Verification unsuccessful" with no token is
  therefore read as success-without-token (`UnsuccessfulReadAsSuccess`).

In these places the code guarantees less than an idealised controller would, and the model follows the code:
- `handleResend` checks only the countdown. The `isResending` guard exists only as the
  button's `disabled`. `Resend` has no `isResending` guard, and `Step` applies the button's.
- A submit neither stops nor resets the countdown.
- Timer ticks and a pending Resend still change state while the vendor-waiting screen shows.
  Only the code, the vendor-waiting flag and the calls made are frozen
  (`VendorWaitingIsTerminal`).

## Model

| member | source | states |
|---|---|---|
| Text.KeepDigits | components/auth/otp-verification-form.tsx:190 | the `\D` filter leaves only digits and never lengthens the text; it leaves a text unchanged exactly when every character is a digit, and a text holding a non-digit comes out strictly shorter, so non-digits are dropped, not replaced |
| Text.KeepDigitsAppend | components/auth/otp-verification-form.tsx:190 | filtering a concatenation is concatenating the filtered parts, so characters keep their order |
| Text.LowerChar | backend/src/main/java/com/eventvenue/service/FileUploadService.java:91 | lower-casing maps A-Z to a-z by +32 and leaves every other character unchanged |
| Text.ToLower | backend/src/main/java/com/eventvenue/service/FileUploadService.java:91 | lower-casing keeps the length, yields no upper-case letter, and leaves a lower-case text unchanged |
| Text.ToLowerAppend | components/auth/otp-verification-form.tsx:67 | lower-casing distributes over concatenation |
| Text.ContainedInMiddle | components/auth/otp-verification-form.tsx:67 | a word is found in any text that has it as a slice |
| Text.IncludedIgnoringCase | components/auth/otp-verification-form.tsx:67 | a lower-case word is found, ignoring case, in any text that has it as a slice |
| Text.NotIncludedIgnoringCase | components/auth/otp-verification-form.tsx:67 | a word is not found, after lower-casing, in a text that lacks one of its letters in both cases |
| Text.LastIndexOf | backend/src/main/java/com/eventvenue/service/FileUploadService.java:91 | the result is -1 exactly when the character is absent; otherwise the character is at the result and nowhere after it |
| Text.EqualsIgnoreCaseIffLowerEqual | backend/src/main/java/com/eventvenue/service/FileUploadService.java:76 | two texts are equal ignoring case exactly when their lower-case forms are equal |
| OtpForm.OnChange | components/auth/otp-verification-form.tsx:188-190 | after any input event the code is the digits of the edited text, or of its first six characters when it is longer; so it is at most six digits, it equals the typed text exactly when that text is at most six digits, and nothing else changes |
| OtpForm.Classify | components/auth/otp-verification-form.tsx:66-80 | failure exactly when there is neither a success word nor a token; vendor-pending exactly when the failure test passed, the role is VENDOR and "awaiting" occurs; a login attempt exactly when there is a token and the response is not vendor-pending; a failure always carries a non-empty message |
| OtpForm.MaxLengthClamp | components/auth/otp-verification-form.tsx:188 | the field never holds more than six characters: a longer edit keeps its first six, a shorter one is kept whole |
| OtpForm.BeginSubmit | components/auth/otp-verification-form.tsx:57-64 | a submit clears the error and the waiting screen, sets loading, calls Verify with the email, the code and the role, and changes nothing else |
| OtpForm.FinishSubmit | components/auth/otp-verification-form.tsx:64-99 | after Verify settles, from whatever state it settles in: loading is off and only the error and waiting flag may change. A rejected Verify shows its message or "Invalid OTP. Please try again."; a failure shows the message or "Verification failed"; a pending vendor shows the waiting screen and leaves the error as it was; a token gives one Login, then the 500 ms dashboard redirect leaving the error as it was, or the login-failed message; a success word without a token shows the auto-login-failed message. Only the vendor case touches the waiting flag |
| OtpForm.Submit | components/auth/otp-verification-form.tsx:57-100 | one submit calls Verify first with the current code and ends not loading. Its outcomes: a rejected Verify shows its message or "Invalid OTP. Please try again."; no success word and no token shows the message or "Verification failed"; a pending vendor shows the waiting screen with no Login even with a token; a token gives exactly one Login, then a 500 ms redirect to /vendor/dashboard or /user/dashboard on success, or "Login failed. Please try logging in manually." on failure; a success word without a token shows the auto-login-failed message. In every non-vendor case the waiting screen is off; only the token case calls Login |
| OtpForm.Tick | components/auth/otp-verification-form.tsx:41-47 | a tick lowers a positive countdown by one, leaves 0 alone, and changes nothing else |
| OtpForm.BeginResend | components/auth/otp-verification-form.tsx:102-107 | with the countdown above 0 nothing changes and nothing is called; otherwise the error is cleared, resending is set, Resend is called with the email and role, and nothing else changes |
| OtpForm.FinishResend | components/auth/otp-verification-form.tsx:108-115 | resending ends; success restarts the countdown at 30 and keeps the error; failure keeps the countdown and shows the message or "Failed to resend OTP."; the code, loading and waiting flags are untouched |
| OtpForm.Resend | components/auth/otp-verification-form.tsx:102-116 | with the countdown above 0 nothing happens and no call is made; otherwise exactly one Resend call is made and `isResending` ends false; success clears the error and restarts the countdown at 30; failure keeps it at 0 and shows the message or "Failed to resend OTP." |
| OtpForm.Back | components/auth/otp-verification-form.tsx:49-55 | the caller's callback when one was given, otherwise navigation to /signup?role=user or /signup?role=vendor |
| OtpForm.LowerRoleName | components/auth/otp-verification-form.tsx:53 | the lower-cased role gives exactly the paths /signup?role=user and /signup?role=vendor |
| OtpForm.Step | components/auth/otp-verification-form.tsx:118-249 | the waiting screen is never left and the code never changes under it; a submit click on the code screen with the button enabled is `BeginSubmit`, and a resend click with the button enabled is `BeginResend`; a click that calls nothing (a disabled button, or a button the screen does not show) leaves the state unchanged; a Verify settling while it is pending is `FinishSubmit` on the current state, and a Resend settling while it is pending is `FinishResend`; a call settling when none is pending changes nothing; Verify is called only while no Verify is pending, and Resend only while no Resend is pending; Login and the redirect happen only as a pending Verify settles; a timer event applies one tick and calls nothing; typing on the code screen applies the input handler; Back on the code screen does what the back button does; Return to Login on the waiting screen navigates to /login?role=vendor |
| OtpFormProperties.StepPreservesInvariant | components/auth/otp-verification-form.tsx:23-28 | every event keeps the code at most six digits, the countdown within 0..30, and loading off on the waiting screen |
| Text.KeepDigitsAround | components/auth/otp-verification-form.tsx:190 | filtering text placed between two runs of digits keeps both runs and the placed text's digits, in order |
| OtpFormProperties.Insertion | components/auth/otp-verification-form.tsx:188-190 | inserting text anywhere in a digits-only code, when the result fits six characters, inserts exactly that text's digits at that place: a paste of "12-34" gives "1234" |
| OtpFormProperties.Keystroke | components/auth/otp-verification-form.tsx:188-190 | typing a character after a code of fewer than six digits appends it when it is a digit and leaves the code unchanged otherwise |
| OtpFormProperties.VerifyOnlyWithFullCode | components/auth/otp-verification-form.tsx:206 | the submit button's `disabled` means Verify is only called with the code on screen, and that code is exactly six digits |
| OtpFormProperties.ResendOnlyAfterCooldown | components/auth/otp-verification-form.tsx:225 | the resend button's `disabled` means Resend is only called once the countdown is 0 and no resend is pending |
| OtpFormProperties.RunPreservesInvariant | components/auth/otp-verification-form.tsx:23-28 | the same invariant holds after any sequence of events |
| OtpFormProperties.ReachableStatesKeepInvariant | components/auth/otp-verification-form.tsx:188-190 | every state reachable from mount has a code of at most six digits and a countdown of at most 30 |
| OtpFormProperties.VendorWaitingIsTerminal | components/auth/otp-verification-form.tsx:118-156 | once the vendor-waiting screen shows, it stays, the code is frozen, and the only call left is navigation to /login?role=vendor |
| OtpFormProperties.TicksCountdown | components/auth/otp-verification-form.tsx:41-47 | after n ticks the countdown is its old value minus n, floored at 0; nothing else changes |
| OtpFormProperties.CooldownLastsThirtyTicks | components/auth/otp-verification-form.tsx:28-47 | from 30, the countdown reaches 0 after exactly 30 ticks, and the resend button is disabled after every smaller number |
| OtpFormProperties.RunTimerTicks | components/auth/otp-verification-form.tsx:41-47 | n timer events in the mounted form change the state exactly as n ticks do and make no calls |
| OtpFormProperties.CooldownUnderRun | components/auth/otp-verification-form.tsx:28-47 | in the mounted form, a fresh cooldown unlocks the resend button after exactly 30 timer events and not before |
| OtpFormProperties.SubmitEventsMatchHandler | components/auth/otp-verification-form.tsx:57-100 | an enabled submit click followed by Verify settling is exactly one run of the submit handler |
| OtpFormProperties.ResendEventsMatchHandler | components/auth/otp-verification-form.tsx:102-116 | an enabled resend click followed by Resend settling is exactly one run of the resend handler |
| OtpFormProperties.RunSnoc | components/auth/otp-verification-form.tsx:118-249 | one more event after a run continues from the state the run ends in, and its calls follow the run's calls |
| OtpFormProperties.PendingVerifySurvives | components/auth/otp-verification-form.tsx:57-99 | while Verify is pending, no other event (typing, ticks, a second click, a resend and its answer, Back) clears the loading state, which only the submit's own `finally` clears |
| OtpFormProperties.InterleavedVerifySettles | components/auth/otp-verification-form.tsx:57-99 | whatever events come between a submit and its answer, the answer is handled as `FinishSubmit` on the state it finds, with its calls after the earlier ones, and the form then stops loading |
| OtpFormProperties.LoginAfterInterleavedResend | components/auth/otp-verification-form.tsx:57-116 | submit, then a resend that fails with "down", then Verify answering "Email verified" with a token: the calls are Verify, Resend, Login and the 500 ms redirect to /user/dashboard, and the form ends not loading, not resending, showing "down" |
| OtpFormProperties.FailedVerificationsNeverLogIn | components/auth/otp-verification-form.tsx:66-71 | if every Verify fails, any run of events makes no Login call, no redirect, and never shows the waiting screen |
| OtpFormProperties.UserLoginExample | components/auth/otp-verification-form.tsx:79-87 | "Email verified successfully" with a token, for a user, is a login attempt |
| OtpFormProperties.VendorPendingExample | components/auth/otp-verification-form.tsx:73-77 | "Vendor verified, awaiting admin approval" with a token, for a vendor, is vendor-pending |
| OtpFormProperties.AwaitingWithoutSuccessIsFailure | components/auth/otp-verification-form.tsx:69-77 | "Awaiting admin approval" with no token, for a vendor, is a failure with that message, because the failure test runs first |
| OtpFormProperties.InvalidCodeExample | components/auth/otp-verification-form.tsx:69-70 | "Invalid code" with no token is a failure with that message for either role |
| OtpFormProperties.UnsuccessfulReadAsSuccess | components/auth/otp-verification-form.tsx:67 | "Verification unsuccessful" with no token is read as a success without a token, not as a failure |
| FileUpload.FileExtension | backend/src/main/java/com/eventvenue/service/FileUploadService.java:87-92 | the extension has no dot and no upper-case letter; it is "" for a missing name or a name without a dot; it is shorter than the name |
| FileUpload.ValidateFile | backend/src/main/java/com/eventvenue/service/FileUploadService.java:64-85 | a missing or empty file is "File is empty" before anything else; a present file over 10·1024·1024 bytes is the size error; otherwise it passes exactly when its extension matches a whitelisted one ignoring case, and else gets the type error |
| FileUpload.WhitelistMatchIsMembership | backend/src/main/java/com/eventvenue/service/FileUploadService.java:73-80 | for a lower-case extension, a case-insensitive match against the whitelist is plain membership |
| FileUpload.UploadImage | backend/src/main/java/com/eventvenue/service/FileUploadService.java:28-49 | an upload fails exactly when validation fails, with its message; on success the URL is backendUrl/uploads/subDirectory/uuid.extension |
| FileUpload.Uploadable | backend/src/main/java/com/eventvenue/service/FileUploadService.java:54-55 | the files passed on are no more than the inputs and none is empty |
| FileUpload.PassesUpToIsEveryPresentValid | backend/src/main/java/com/eventvenue/service/FileUploadService.java:54-58 | the loop's running condition holds for a prefix exactly when every present, non-empty file in it passes validation |
| FileUpload.UploadImages | backend/src/main/java/com/eventvenue/service/FileUploadService.java:51-62 | the batch succeeds exactly when every present, non-empty file passes validation; otherwise its error is the message of a present file that fails validation while every present file before it passes; on success there is one URL per present, non-empty file, in input order, the k-th named with the k-th UUID |
| FileUpload.UploadableAppend | backend/src/main/java/com/eventvenue/service/FileUploadService.java:54-59 | filtering a concatenation is concatenating the filtered parts, so input order is kept |
| FileUploadProperties.ExtensionAfterLastDot | backend/src/main/java/com/eventvenue/service/FileUploadService.java:87-92 | the extension of base.ext is ext lower-cased, whatever dots base holds, when ext has none |
| FileUploadProperties.MultiDotExtension | backend/src/main/java/com/eventvenue/service/FileUploadService.java:87-92 | only the text after the last dot counts, lower-cased: "a.b.PNG" gives "png" |
| FileUploadProperties.TrailingDotExtension | backend/src/main/java/com/eventvenue/service/FileUploadService.java:87-92 | a name ending in a dot has the empty extension: "x." gives "" |
| FileUploadProperties.NoDotExtension | backend/src/main/java/com/eventvenue/service/FileUploadService.java:87-92 | a name without a dot has the empty extension: "README" gives "" |
| FileUploadProperties.AcceptedIffWhitelistedIgnoringCase | backend/src/main/java/com/eventvenue/service/FileUploadService.java:73-84 | a present, in-limit file named base.ext passes exactly when ext equals a whitelisted extension ignoring case |
| FileUploadProperties.UpperCaseJpgExtension | backend/src/main/java/com/eventvenue/service/FileUploadService.java:87-92 | "Photo.JPG" has the extension "jpg" |
| FileUploadProperties.UpperCaseJpgAccepted | backend/src/main/java/com/eventvenue/service/FileUploadService.java:73-84 | "Photo.JPG" of 2048 bytes passes validation |
| FileUploadProperties.EmptyReportedFirst | backend/src/main/java/com/eventvenue/service/FileUploadService.java:65-67 | a missing or empty file is reported as empty whatever its name |
| FileUploadProperties.SizeBoundary | backend/src/main/java/com/eventvenue/service/FileUploadService.java:69-71 | exactly 10 MiB passes the size check; one byte more fails it |
| FileUploadProperties.UrlExtensionRoundTrip | backend/src/main/java/com/eventvenue/service/FileUploadService.java:38-48 | reading the extension back from a returned URL gives the extension of the uploaded file's name |
| FileUploadProperties.NothingToUpload | backend/src/main/java/com/eventvenue/service/FileUploadService.java:54-59 | a batch of only missing or empty files passes nothing on and has no rejection, so the upload succeeds with no URLs |

## Left out

- `lib/api/integration-test.ts`: a diagnostic script that calls live endpoints, times them and collects results in a module-level array; it has no behaviour of its own to state.
- Rendering, styling, icons and input focus of the OTP form. Only which controls are live survives, inside `Step`: the two screens and the buttons' `disabled`.
- Real time: the one-second countdown timer is the `TimerTick` event, and the 500 ms pause before the redirect is the delay inside the `NavigateAfter` effect. Timer scheduling and cleanup are not modelled.
- The internals of Verify, Login, Resend and the router: their answers are parameters and their calls are effects. The message of a Login failure is ignored, as in the code.
- React re-rendering, effect cleanup, unmounting and responses arriving after unmount.
- `preventDefault` on the submit event, and the console logging of a Login failure.
- OtpForm.OnChange: the browser's `maxLength` is modelled as keeping the first six characters of the edited text. A real browser may cut a paste at the caret instead.
- An absent `message` is the empty string, which `response.message || ""` makes equivalent. An empty `token` counts as no token, as JavaScript truthiness does.
- Text.ToLower: JavaScript `toLowerCase`, Java `toLowerCase` (with the default locale) and `equalsIgnoreCase` are modelled on ASCII letters only. Non-ASCII case mappings are not modelled.
- Disk work in `uploadImage`: `Files.exists`, `createDirectories`, `copy`, the input stream, and the `IOException`s they may throw. The upload directory is therefore unused.
- UUID generation: the k-th upload of a batch is named with `uuids(k)`, a parameter. The injected `backendUrl` is a parameter as well.
- FileUpload.IsEmpty: `MultipartFile.isEmpty` is modelled as a size of 0 (Spring's standard implementation); a part with no chosen file has size 0 as well.
- A null `files` array, which makes `uploadImages` throw at its loop: the model's sequences are never null.
- A null `subDirectory`, which makes `uploadImage` throw at `Paths.get` (FileUploadService.java line 32) after validation: the model's strings are never null.

=== FILE: file_upload.dfy ===
/** The image upload service: extension extraction, validation (empty,
    size cap, extension whitelist), the stored name and public URL of one
    upload, and the loop that uploads a batch. Writing to disk is not
    modelled; the random UUIDs and the injected backend URL are
    parameters. */
module FileUpload {
  import opened Wrappers
  import opened Text

  /** 10 MiB. */
  const MaxFileSize: nat := 10 * 1024 * 1024
  const AllowedExtensions: seq<string> := ["jpg", "jpeg", "png", "gif", "webp"]

  const FileIsEmpty: string := "File is empty"
  const FileTooLarge: string := "File size exceeds maximum limit of 10MB"
  const TypeNotAllowed: string := "File type not allowed. Allowed types: jpg, jpeg, png, gif, webp"

  /** A multipart upload: the client's file name, which may be missing,
      and the size in bytes. */
  datatype UploadedFile = UploadedFile(originalFilename: Option<string>, size: nat)

  /** `MultipartFile.isEmpty`: the part has no content. */
  predicate IsEmpty(f: UploadedFile) {
    f.size == 0
  }

  /** `file != null && !file.isEmpty()`. */
  predicate IsPresent(f: Option<UploadedFile>) {
    f.Some? && !IsEmpty(f.value)
  }

  /** `getFileExtension`: what follows the last dot, lower-cased, or "" for
      a missing name or a name without a dot. */
  function FileExtension(filename: Option<string>): (ext: string)
    ensures '.' !in ext
    ensures IsLower(ext)
    ensures filename.None? || '.' !in filename.value ==> ext == ""
    ensures filename.Some? ==> |ext| < |filename.value| || ext == ""
  {
    if filename.None? || '.' !in filename.value then ""
    else
      var name := filename.value;
      var suffix := name[LastIndexOf(name, '.') + 1..];
      assert forall i | 0 <= i < |suffix| :: suffix[i] in suffix;
      ToLower(suffix)
  }

  /** The validation outcome with the whitelist check read as membership of
      the (already lower-cased) extension; `ValidateFile`, which scans the
      whitelist with `equalsIgnoreCase`, is proved to agree with it. */
  function Validate(f: Option<UploadedFile>): Outcome<string> {
    if !IsPresent(f) then Fail(FileIsEmpty)
    else if f.value.size > MaxFileSize then Fail(FileTooLarge)
    else if FileExtension(f.value.originalFilename) in AllowedExtensions then Pass
    else Fail(TypeNotAllowed)
  }

  /** `validateFile`: the empty check, then the size cap, then a scan of
      the whitelist with `equalsIgnoreCase` that stops at the first match. */
  method ValidateFile(f: Option<UploadedFile>) returns (r: Outcome<string>)
    ensures !IsPresent(f) ==> r == Fail("File is empty")
    ensures IsPresent(f) && f.value.size > 10 * 1024 * 1024 ==>
      r == Fail("File size exceeds maximum limit of 10MB")
    ensures IsPresent(f) && f.value.size <= 10 * 1024 * 1024 ==>
      && (r == Pass <==> exists a | a in AllowedExtensions ::
                           EqualsIgnoreCase(a, FileExtension(f.value.originalFilename)))
      && (r != Pass ==> r == Fail("File type not allowed. Allowed types: jpg, jpeg, png, gif, webp"))
    ensures r == Validate(f)
  {
    if f.None? || IsEmpty(f.value) {
      return Fail(FileIsEmpty);
    }
    if f.value.size > MaxFileSize {
      return Fail(FileTooLarge);
    }
    var extension := FileExtension(f.value.originalFilename);
    var isValid := false;
    var i := 0;
    while i < |AllowedExtensions|
      invariant 0 <= i <= |AllowedExtensions|
      invariant !isValid
      invariant forall k | 0 <= k < i :: !EqualsIgnoreCase(AllowedExtensions[k], extension)
    {
      if EqualsIgnoreCase(AllowedExtensions[i], extension) {
        isValid := true;
        break;
      }
      i := i + 1;
    }
    WhitelistMatchIsMembership(extension);
    if !isValid {
      return Fail(TypeNotAllowed);
    }
    return Pass;
  }

  /** Every whitelisted extension is lower-case, so for a lower-case
      extension a case-insensitive match is plain membership. */
  lemma WhitelistMatchIsMembership(ext: string)
    requires IsLower(ext)
    ensures (exists a | a in AllowedExtensions :: EqualsIgnoreCase(a, ext)) <==> ext in AllowedExtensions
  {
    assert forall a | a in AllowedExtensions :: IsLower(a);
    forall a | a in AllowedExtensions
      ensures EqualsIgnoreCase(a, ext) <==> a == ext
    {
      EqualsIgnoreCaseIffLowerEqual(a, ext);
    }
  }

  /** The public URL of a stored upload. */
  function ImageUrl(backendUrl: string, subDirectory: string, uuid: string, ext: string): string {
    backendUrl + "/uploads/" + subDirectory + "/" + uuid + "." + ext
  }

  /** `uploadImage` without the disk write: validate, then name the file
      `<uuid>.<extension>` and return its URL. */
  method UploadImage(f: Option<UploadedFile>, subDirectory: string, uuid: string, backendUrl: string)
    returns (r: Result<string, string>)
    ensures r.Err? <==> Validate(f).Fail?
    ensures r.Err? ==> r.error == Validate(f).error
    ensures r.Ok? ==>
      && f.Some?
      && r.value == ImageUrl(backendUrl, subDirectory, uuid, FileExtension(f.value.originalFilename))
  {
    var outcome := ValidateFile(f);
    if outcome.Fail? {
      return Err(outcome.error);
    }
    var extension := FileExtension(f.value.originalFilename);
    var uniqueFilename := uuid + "." + extension;
    return Ok(backendUrl + "/uploads/" + subDirectory + "/" + uniqueFilename);
  }

  /** The files `uploadImages` passes on, in order: the present, non-empty ones. */
  function Uploadable(files: seq<Option<UploadedFile>>): (kept: seq<UploadedFile>)
    ensures |kept| <= |files|
    ensures forall k | 0 <= k < |kept| :: !IsEmpty(kept[k])
    decreases |files|
  {
    if |files| == 0 then []
    else
      var last := files[|files| - 1];
      Uploadable(files[..|files| - 1]) + (if IsPresent(last) then [last.value] else [])
  }

  /** Every present file among the first `n` passes validation, checked
      from the last of them back. */
  predicate PassesUpTo(files: seq<Option<UploadedFile>>, n: nat)
    requires n <= |files|
  {
    n == 0 || (PassesUpTo(files, n - 1) && (IsPresent(files[n - 1]) ==> Validate(files[n - 1]).Pass?))
  }

  /** `PassesUpTo` says that every present file in the prefix validates. */
  lemma {:induction false} PassesUpToIsEveryPresentValid(files: seq<Option<UploadedFile>>, n: nat)
    requires n <= |files|
    ensures PassesUpTo(files, n) <==> forall k | 0 <= k < n :: IsPresent(files[k]) ==> Validate(files[k]).Pass?
  {
    if n > 0 {
      PassesUpToIsEveryPresentValid(files, n - 1);
    }
  }

  /** File `k` is present and rejected with `error`, and every present file
      before it passes. */
  predicate RejectedAt(files: seq<Option<UploadedFile>>, k: int, error: string) {
    && 0 <= k < |files|
    && IsPresent(files[k]) && Validate(files[k]) == Fail(error)
    && PassesUpTo(files, k)
  }

  /** A rejected file means not every present file passes. */
  lemma RejectionFailsBatch(files: seq<Option<UploadedFile>>, k: int, error: string)
    requires RejectedAt(files, k, error)
    ensures !PassesUpTo(files, |files|)
  {
    PassesUpToIsEveryPresentValid(files, |files|);
    assert IsPresent(files[k]) && !Validate(files[k]).Pass?;
  }

  /** `uploadImages`: skips missing and empty files and uploads the rest in
      order; the k-th upload is named with `uuids(k)`. The first upload that
      throws ends the call with its error. */
  method UploadImages(files: seq<Option<UploadedFile>>, subDirectory: string,
                      uuids: nat -> string, backendUrl: string)
    returns (r: Result<seq<string>, string>)
    ensures r.Ok? <==> PassesUpTo(files, |files|)
    ensures r.Err? ==> exists k :: RejectedAt(files, k, r.error)
    ensures r.Ok? ==>
      && |r.value| == |Uploadable(files)|
      && forall k | 0 <= k < |r.value| ::
           r.value[k] == ImageUrl(backendUrl, subDirectory, uuids(k),
                                  FileExtension(Uploadable(files)[k].originalFilename))
  {
    var urls: seq<string> := [];
    var i := 0;
    while i < |files|
      invariant 0 <= i <= |files|
      invariant PassesUpTo(files, i)
      invariant urls == UrlsFor(Uploadable(files[..i]), backendUrl, subDirectory, uuids)
    {
      UploadableSnoc(files, i);
      if files[i].Some? && !IsEmpty(files[i].value) {
        var kept := Uploadable(files[..i]);
        var url := UploadImage(files[i], subDirectory, uuids(|urls|), backendUrl);
        if url.Err? {
          assert RejectedAt(files, i, url.error);
          RejectionFailsBatch(files, i, url.error);
          return Err(url.error);
        }
        UrlsForSnoc(kept, files[i].value, backendUrl, subDirectory, uuids);
        urls := urls + [url.value];
      } else {
        assert Uploadable(files[..i]) + [] == Uploadable(files[..i]);
      }
      i := i + 1;
    }
    assert files[..|files|] == files;
    return Ok(urls);
  }

  /** The URLs of the files `kept`, the k-th named with `uuids(k)`. */
  function UrlsFor(kept: seq<UploadedFile>, backendUrl: string, subDirectory: string,
                   uuids: nat -> string): seq<string>
  {
    seq(|kept|, k requires 0 <= k < |kept| =>
      ImageUrl(backendUrl, subDirectory, uuids(k), FileExtension(kept[k].originalFilename)))
  }

  lemma UrlsForSnoc(kept: seq<UploadedFile>, f: UploadedFile, backendUrl: string,
                    subDirectory: string, uuids: nat -> string)
    ensures UrlsFor(kept + [f], backendUrl, subDirectory, uuids)
         == UrlsFor(kept, backendUrl, subDirectory, uuids)
            + [ImageUrl(backendUrl, subDirectory, uuids(|kept|), FileExtension(f.originalFilename))]
  {
  }

  /** One more file extends the filtered prefix by that file if it is present. */
  lemma UploadableSnoc(files: seq<Option<UploadedFile>>, i: nat)
    requires i < |files|
    ensures Uploadable(files[..i + 1])
         == Uploadable(files[..i]) + (if IsPresent(files[i]) then [files[i].value] else [])
  {
    assert files[..i + 1][..i] == files[..i];
  }

  /** Filtering a concatenation filters each part: order is preserved. */
  lemma {:induction false} UploadableAppend(a: seq<Option<UploadedFile>>, b: seq<Option<UploadedFile>>)
    ensures Uploadable(a + b) == Uploadable(a) + Uploadable(b)
    decreases |b|
  {
    if |b| == 0 {
      assert a + b == a;
    } else {
      assert (a + b)[..|a + b| - 1] == a + b[..|b| - 1];
      UploadableAppend(a, b[..|b| - 1]);
    }
  }
}

=== FILE: file_upload_properties.dfy ===
/** Properties of the upload service that relate its pieces: the extension
    read back from a name built around it, case-insensitive acceptance,
    the size boundary, and the extension of the URL an upload returns. */
module FileUploadProperties {
  import opened Wrappers
  import opened Text
  import opened FileUpload

  /** The extension of `base.ext` is `ext` lower-cased, whatever dots `base`
      holds, as long as `ext` has none. */
  lemma ExtensionAfterLastDot(base: string, ext: string)
    requires '.' !in ext
    ensures FileExtension(Some(base + "." + ext)) == ToLower(ext)
  {
    var name := base + "." + ext;
    assert name[|base|] == '.';
    var dot := LastIndexOf(name, '.');
    assert dot == |base|;
    assert name[dot + 1..] == ext;
  }

  lemma MultiDotExtension()
    ensures FileExtension(Some("a.b.PNG")) == "png"
  {
    ExtensionAfterLastDot("a.b", "PNG");
    assert "a.b" + "." + "PNG" == "a.b.PNG";
    assert ToLower("PNG") == "png";
  }

  lemma TrailingDotExtension()
    ensures FileExtension(Some("x.")) == ""
  {
    ExtensionAfterLastDot("x", "");
    assert "x" + "." + "" == "x.";
  }

  lemma NoDotExtension()
    ensures FileExtension(Some("README")) == ""
  {
    assert "README"[1] == 'E';
  }

  /** A present, in-limit file named `base.ext` is accepted exactly when
      `ext` matches a whitelisted extension ignoring case. */
  lemma AcceptedIffWhitelistedIgnoringCase(base: string, ext: string, size: nat)
    requires '.' !in ext && 0 < size <= MaxFileSize
    ensures Validate(Some(UploadedFile(Some(base + "." + ext), size))) == Pass
        <==> exists a | a in AllowedExtensions :: EqualsIgnoreCase(a, ext)
  {
    ExtensionAfterLastDot(base, ext);
    WhitelistMatchIsMembership(ToLower(ext));
    forall a | a in AllowedExtensions
      ensures EqualsIgnoreCase(a, ext) <==> EqualsIgnoreCase(a, ToLower(ext))
    {
      EqualsIgnoreCaseIffLowerEqual(a, ext);
      EqualsIgnoreCaseIffLowerEqual(a, ToLower(ext));
    }
  }

  lemma UpperCaseJpgAccepted()
    ensures Validate(Some(UploadedFile(Some("Photo.JPG"), 2048))) == Pass
  {
    UpperCaseJpgExtension();
  }

  lemma UpperCaseJpgExtension()
    ensures FileExtension(Some("Photo.JPG")) == "jpg"
  {
    ExtensionAfterLastDot("Photo", "JPG");
    assert "Photo" + "." + "JPG" == "Photo.JPG";
    assert ToLower("JPG") == "jpg";
  }

  /** The emptiness check comes first: a missing or empty file is reported
      as empty whatever its size or name. */
  lemma EmptyReportedFirst(name: Option<string>)
    ensures Validate(None) == Fail(FileIsEmpty)
    ensures Validate(Some(UploadedFile(name, 0))) == Fail(FileIsEmpty)
  {
  }

  /** The size cap is inclusive: exactly 10 MiB passes it, one byte more
      does not. */
  lemma SizeBoundary(name: Option<string>)
    ensures Validate(Some(UploadedFile(name, 10485760))) != Fail(FileTooLarge)
    ensures Validate(Some(UploadedFile(name, 10485761))) == Fail(FileTooLarge)
  {
  }

  /** Reading the extension back from the URL of a stored upload gives the
      extension of the name it was uploaded under. */
  lemma UrlExtensionRoundTrip(backendUrl: string, subDirectory: string, uuid: string,
                              name: Option<string>)
    ensures var ext := FileExtension(name);
            FileExtension(Some(ImageUrl(backendUrl, subDirectory, uuid, ext))) == ext
  {
    var ext := FileExtension(name);
    var prefix := backendUrl + "/uploads/" + subDirectory + "/" + uuid;
    assert ImageUrl(backendUrl, subDirectory, uuid, ext) == prefix + "." + ext;
    ExtensionAfterLastDot(prefix, ext);
  }

  /** A batch with nothing to upload passes nothing on and has no
      rejection, so `UploadImages` succeeds with no URLs. */
  lemma NothingToUpload(files: seq<Option<UploadedFile>>)
    requires forall i | 0 <= i < |files| :: !IsPresent(files[i])
    ensures Uploadable(files) == []
    ensures PassesUpTo(files, |files|)
  {
    NothingUploadable(files);
    AbsentFilesPass(files, |files|);
  }

  lemma {:induction false} NothingUploadable(files: seq<Option<UploadedFile>>)
    requires forall i | 0 <= i < |files| :: !IsPresent(files[i])
    ensures Uploadable(files) == []
    decreases |files|
  {
    if |files| > 0 {
      NothingUploadable(files[..|files| - 1]);
    }
  }

  lemma {:induction false} AbsentFilesPass(files: seq<Option<UploadedFile>>, n: nat)
    requires n <= |files| && forall i | 0 <= i < |files| :: !IsPresent(files[i])
    ensures PassesUpTo(files, n)
  {
    if n > 0 {
      AbsentFilesPass(files, n - 1);
    }
  }
}

=== FILE: otp_form.dfy ===
/** The OTP verification controller hidden in the signup form: code entry,
    submit and response classification, the resend cooldown, and the
    navigation it asks for. React state is the immutable `State`; each
    handler is a pure transition that also returns the calls it makes on
    its collaborators (Verify, Login, Resend, the router) as `Effect`s.
    The collaborators' answers are parameters. */
module OtpForm {
  import opened Wrappers
  import opened Text

  // The numbers and texts of the form. Bodies and definitions use these
  // names; contracts spell the values out so that they read directly
  // against the component.

  /** The input's `maxLength` and the length the submit guard asks for. */
  const OtpLength: nat := 6
  /** Seconds before a resend is allowed, at mount and after each resend. */
  const ResendCooldown: nat := 30
  /** Pause between a successful login and the dashboard redirect. */
  const PostLoginDelayMs: nat := 500

  // The texts the form shows.
  const VerificationFailed: string := "Verification failed"
  const InvalidOtp: string := "Invalid OTP. Please try again."
  const LoginFailed: string := "Login failed. Please try logging in manually."
  const SuccessWithoutToken: string :=
    "Verification successful, but auto-login failed. Please log in manually."
  const ResendFailed: string := "Failed to resend OTP."
  const VendorLoginPath: string := "/login?role=vendor"

  datatype Role = User | Vendor

  function RoleName(role: Role): string {
    match role
    case User => "USER"
    case Vendor => "VENDOR"
  }

  /** The component's props, fixed for its lifetime. */
  datatype Session = Session(email: string, role: Role, hasOnBack: bool)

  datatype State = State(
    otp: string,
    error: string,
    isLoading: bool,
    isResending: bool,
    isVendorWaiting: bool,
    countdown: nat)

  const Initial: State := State("", "", false, false, false, ResendCooldown)

  /** What Verify resolves with. An absent `message` is "" (the source reads
      it as `response.message || ""`); `token` is optional. */
  datatype VerifyResponse = VerifyResponse(message: string, token: Option<string>)

  /** Verify either resolves with a response or rejects with an error whose
      message may be empty. */
  datatype VerifyOutcome = Verified(response: VerifyResponse) | VerifyRejected(reason: string)
  datatype LoginOutcome = LoginSucceeded | LoginRejected(reason: string)
  datatype ResendOutcome = ResendSucceeded | ResendRejected(reason: string)

  datatype Effect =
    | CallVerify(email: string, otp: string, role: Role)
    | CallLogin(response: VerifyResponse)
    | NavigateAfter(delayMs: nat, path: string)
    | Navigate(path: string)
    | CallResend(email: string, role: Role)
    | CallOnBack

  datatype Transition = Transition(state: State, effects: seq<Effect>)

  /** JavaScript truthiness of the token: an empty string counts as absent. */
  predicate HasToken(response: VerifyResponse) {
    response.token.Some? && response.token.value != ""
  }

  predicate ReportsSuccess(message: string) {
    IncludesIgnoringCase(message, "verified") || IncludesIgnoringCase(message, "success")
  }

  predicate ReportsAwaiting(message: string) {
    IncludesIgnoringCase(message, "awaiting")
  }

  /** The message of the error thrown for a failed verification. */
  function Thrown(message: string): string {
    if message == "" then VerificationFailed else message
  }

  /** What the catch block shows for an error with the given message. */
  function Caught(errMessage: string): string {
    if errMessage == "" then InvalidOtp else errMessage
  }

  // ---------------------------------------------------------------------
  // Code entry

  /** The browser's `maxLength`: an edit never leaves more than six characters. */
  function MaxLengthClamp(raw: string): (r: string)
    ensures |r| <= 6
    ensures r <= raw
    ensures |raw| <= 6 ==> r == raw
    ensures |raw| > 6 ==> |r| == 6
  {
    if |raw| <= OtpLength then raw else raw[..OtpLength]
  }

  /** An input event with the edited field text `raw`: non-digits are
      stripped; nothing but the code changes. */
  function OnChange(s: State, raw: string): (t: State)
    ensures AllDigits(t.otp) && |t.otp| <= 6
    ensures t == s.(otp := t.otp)
    ensures t.otp == raw <==> AllDigits(raw) && |raw| <= 6
    ensures |raw| <= 6 ==> t.otp == KeepDigits(raw)
    ensures |raw| > 6 ==> t.otp == KeepDigits(raw[..6])
  {
    var clamped := MaxLengthClamp(raw);
    s.(otp := KeepDigits(clamped))
  }

  // ---------------------------------------------------------------------
  // Submit

  /** The submit button is enabled (it is disabled while loading or while
      the code is not six characters long). */
  predicate SubmitEnabled(s: State) {
    !s.isLoading && |s.otp| == OtpLength
  }

  datatype Classification = Failure(error: string) | VendorPending | LoginAttempt | SuccessNoToken

  /** How a resolved verification is read. The failure test comes first, so
      a token alone is enough to avoid it, and a vendor message that only
      says "awaiting" is a failure; the vendor "awaiting" test comes before
      the token test, so it wins even when a token is present. */
  function Classify(role: Role, response: VerifyResponse): (c: Classification)
    ensures c.Failure? <==> !ReportsSuccess(response.message) && !HasToken(response)
    ensures c.VendorPending? <==>
      (ReportsSuccess(response.message) || HasToken(response))
      && role == Vendor && ReportsAwaiting(response.message)
    ensures c.LoginAttempt? <==>
      HasToken(response) && !(role == Vendor && ReportsAwaiting(response.message))
    ensures c.Failure? ==> c.error != ""
  {
    var message := response.message;
    if !ReportsSuccess(message) && !HasToken(response) then Failure(Thrown(message))
    else if role == Vendor && ReportsAwaiting(message) then VendorPending
    else if HasToken(response) then LoginAttempt
    else SuccessNoToken
  }

  function DashboardPath(role: Role): string {
    if role == Vendor then "/vendor/dashboard" else "/user/dashboard"
  }

  /** `handleSubmit` up to the Verify call. */
  function BeginSubmit(session: Session, s: State): (t: Transition)
    ensures t.state.error == "" && !t.state.isVendorWaiting && t.state.isLoading
    ensures t.state.otp == s.otp && t.state.isResending == s.isResending
    ensures t.state.countdown == s.countdown
    ensures t.effects == [CallVerify(session.email, s.otp, session.role)]
  {
    Transition(
      s.(error := "", isVendorWaiting := false, isLoading := true),
      [CallVerify(session.email, s.otp, session.role)])
  }

  /** `handleSubmit` after Verify settles: classification, the Login call,
      the delayed redirect, and the `finally` that clears `isLoading`. */
  function FinishSubmit(session: Session, s: State, verify: VerifyOutcome, login: LoginOutcome)
    : (t: Transition)
    ensures !t.state.isLoading
    ensures t.state == s.(isLoading := false, error := t.state.error, isVendorWaiting := t.state.isVendorWaiting)
    ensures s.isVendorWaiting ==> t.state.isVendorWaiting
    ensures |t.effects| <= 2
    ensures forall e | e in t.effects :: e.CallLogin? || e.NavigateAfter?
    // Verify itself rejected: its message, or a default, is shown.
    ensures verify.VerifyRejected? ==>
      && t.state.error == (if verify.reason == "" then "Invalid OTP. Please try again." else verify.reason)
      && t.state.isVendorWaiting == s.isVendorWaiting
      && t.effects == []
    // Neither a success word nor a token: the thrown message is shown.
    ensures verify.Verified? && Classify(session.role, verify.response).Failure? ==>
      && t.state.error == (if verify.response.message == "" then "Verification failed" else verify.response.message)
      && t.state.isVendorWaiting == s.isVendorWaiting
      && t.effects == []
    // A vendor awaiting approval: the waiting screen, the error left as it was.
    ensures verify.Verified? && Classify(session.role, verify.response).VendorPending? ==>
      && t.state.isVendorWaiting
      && t.state.error == s.error
      && t.effects == []
    // A token: one Login, then the delayed redirect or the login error.
    ensures verify.Verified? && Classify(session.role, verify.response).LoginAttempt? ==>
      && t.state.isVendorWaiting == s.isVendorWaiting
      && (login.LoginSucceeded? ==>
            && t.state.error == s.error
            && t.effects == [CallLogin(verify.response),
                 NavigateAfter(500, if session.role == Vendor then "/vendor/dashboard" else "/user/dashboard")])
      && (login.LoginRejected? ==>
            && t.state.error == "Login failed. Please try logging in manually."
            && t.effects == [CallLogin(verify.response)])
    // A success word but no token.
    ensures verify.Verified? && Classify(session.role, verify.response).SuccessNoToken? ==>
      && t.state.error == "Verification successful, but auto-login failed. Please log in manually."
      && t.state.isVendorWaiting == s.isVendorWaiting
      && t.effects == []
  {
    match verify
    case VerifyRejected(reason) =>
      Transition(s.(isLoading := false, error := Caught(reason)), [])
    case Verified(response) =>
      match Classify(session.role, response)
      case Failure(message) =>
        Transition(s.(isLoading := false, error := Caught(message)), [])
      case VendorPending =>
        Transition(s.(isLoading := false, isVendorWaiting := true), [])
      case LoginAttempt =>
        (match login
         case LoginSucceeded =>
           Transition(s.(isLoading := false),
             [CallLogin(response), NavigateAfter(PostLoginDelayMs, DashboardPath(session.role))])
         case LoginRejected(_) =>
           Transition(s.(isLoading := false, error := LoginFailed), [CallLogin(response)]))
      case SuccessNoToken =>
        Transition(s.(isLoading := false, error := SuccessWithoutToken), [])
  }

  /** One whole run of `handleSubmit`, with nothing else happening while
      Verify and Login are pending. */
  function Submit(session: Session, s: State, verify: VerifyOutcome, login: LoginOutcome)
    : (t: Transition)
    ensures !t.state.isLoading
    ensures t.state.otp == s.otp && t.state.countdown == s.countdown
    ensures t.state.isResending == s.isResending
    ensures |t.effects| >= 1 && t.effects[0] == CallVerify(session.email, s.otp, session.role)
    // Verify itself rejected.
    ensures verify.VerifyRejected? ==>
      && t.state.error == (if verify.reason == "" then "Invalid OTP. Please try again." else verify.reason)
      && !t.state.isVendorWaiting
      && |t.effects| == 1
    // Neither a success word nor a token: the message (or a default) is shown.
    ensures verify.Verified? && !ReportsSuccess(verify.response.message) && !HasToken(verify.response) ==>
      && t.state.error == (if verify.response.message == "" then "Verification failed" else verify.response.message)
      && !t.state.isVendorWaiting
      && |t.effects| == 1
    // A vendor still awaiting approval: no login, even with a token.
    ensures verify.Verified? && (ReportsSuccess(verify.response.message) || HasToken(verify.response))
            && session.role == Vendor && ReportsAwaiting(verify.response.message) ==>
      && t.state.isVendorWaiting
      && t.state.error == ""
      && |t.effects| == 1
    // A token and no pending approval: exactly one Login call.
    ensures verify.Verified? && HasToken(verify.response)
            && !(session.role == Vendor && ReportsAwaiting(verify.response.message)) ==>
      && !t.state.isVendorWaiting
      && (login.LoginSucceeded? ==>
            && t.state.error == ""
            && t.effects[1..] == [CallLogin(verify.response),
                 NavigateAfter(500, if session.role == Vendor then "/vendor/dashboard" else "/user/dashboard")])
      && (login.LoginRejected? ==>
            && t.state.error == "Login failed. Please try logging in manually."
            && t.effects[1..] == [CallLogin(verify.response)])
    // A success word but no token.
    ensures verify.Verified? && ReportsSuccess(verify.response.message) && !HasToken(verify.response)
            && !(session.role == Vendor && ReportsAwaiting(verify.response.message)) ==>
      && t.state.error == "Verification successful, but auto-login failed. Please log in manually."
      && !t.state.isVendorWaiting
      && |t.effects| == 1
  {
    var begun := BeginSubmit(session, s);
    var done := FinishSubmit(session, begun.state, verify, login);
    Transition(done.state, begun.effects + done.effects)
  }

  // ---------------------------------------------------------------------
  // Resend cooldown

  /** One firing of the one-second timer, which is only armed while the
      countdown is positive. */
  function Tick(s: State): (t: State)
    ensures s.countdown > 0 ==> t.countdown + 1 == s.countdown
    ensures s.countdown == 0 ==> t == s
    ensures t == s.(countdown := t.countdown)
  {
    if s.countdown > 0 then s.(countdown := s.countdown - 1) else s
  }

  /** `n` timer events in a row. */
  function Ticks(s: State, n: nat): State
    decreases n
  {
    if n == 0 then s else Ticks(Tick(s), n - 1)
  }

  /** `handleResend` up to the Resend call. */
  function BeginResend(session: Session, s: State): (t: Transition)
    ensures s.countdown > 0 ==> t.state == s && t.effects == []
    ensures s.countdown == 0 ==>
      && t.state.error == "" && t.state.isResending
      && t.state.otp == s.otp && t.state.isLoading == s.isLoading
      && t.state.isVendorWaiting == s.isVendorWaiting && t.state.countdown == 0
      && t.effects == [CallResend(session.email, session.role)]
  {
    if s.countdown > 0 then Transition(s, [])
    else Transition(s.(error := "", isResending := true), [CallResend(session.email, session.role)])
  }

  /** `handleResend` after Resend settles. */
  function FinishResend(s: State, resend: ResendOutcome): (t: State)
    ensures !t.isResending
    ensures t.otp == s.otp && t.isLoading == s.isLoading && t.isVendorWaiting == s.isVendorWaiting
    ensures resend.ResendSucceeded? ==> t.countdown == 30 && t.error == s.error
    ensures resend.ResendRejected? ==>
      && t.countdown == s.countdown
      && t.error == (if resend.reason == "" then "Failed to resend OTP." else resend.reason)
  {
    match resend
    case ResendSucceeded => s.(countdown := ResendCooldown, isResending := false)
    case ResendRejected(reason) =>
      s.(error := if reason == "" then ResendFailed else reason, isResending := false)
  }

  /** One whole run of `handleResend`. Its only guard is the countdown;
      `isResending` is checked by the button, not here. */
  function Resend(session: Session, s: State, resend: ResendOutcome): (t: Transition)
    ensures s.countdown > 0 ==> t == Transition(s, [])
    ensures s.countdown == 0 ==>
      && t.effects == [CallResend(session.email, session.role)]
      && !t.state.isResending
      && t.state == s.(error := t.state.error, countdown := t.state.countdown, isResending := false)
      && (resend.ResendSucceeded? ==> t.state.countdown == 30 && t.state.error == "")
      && (resend.ResendRejected? ==>
            && t.state.countdown == 0
            && t.state.error == (if resend.reason == "" then "Failed to resend OTP." else resend.reason))
  {
    var begun := BeginResend(session, s);
    if begun.effects == [] then begun
    else Transition(FinishResend(begun.state, resend), begun.effects)
  }

  // ---------------------------------------------------------------------
  // Navigation away

  /** The "Back to Signup" button: the caller's callback when one was
      given, else the signup page for the role. */
  function Back(session: Session): (effects: seq<Effect>)
    ensures session.hasOnBack ==> effects == [CallOnBack]
    ensures !session.hasOnBack ==>
      effects == [Navigate(if session.role == Vendor then "/signup?role=vendor" else "/signup?role=user")]
  {
    if session.hasOnBack then [CallOnBack]
    else
      LowerRoleName(session.role);
      [Navigate("/signup?role=" + ToLower(RoleName(session.role)))]
  }

  lemma LowerRoleName(role: Role)
    ensures "/signup?role=" + ToLower(RoleName(role))
         == if role == Vendor then "/signup?role=vendor" else "/signup?role=user"
  {
    assert ToLower(RoleName(role)) == if role == Vendor then "vendor" else "user";
  }

  // ---------------------------------------------------------------------
  // The component as an event machine

  /** What can happen to a mounted form: user events on the rendered
      controls, the countdown timer, and pending calls settling. */
  datatype Event =
    | Input(raw: string)
    | SubmitForm
    | VerifySettled(verify: VerifyOutcome, login: LoginOutcome)
    | TimerTick
    | ResendClick
    | ResendSettled(resend: ResendOutcome)
    | BackClick
    | ReturnToLoginClick

  /** The resend button is enabled (it is disabled while resending or while
      the countdown runs). */
  predicate ResendButtonEnabled(s: State) {
    !s.isResending && s.countdown == 0
  }

  /** One event. While the vendor-waiting screen is shown the code form is
      not rendered, so only its "Return to Login" button, the timer and
      settling calls have any effect; otherwise a click on a disabled button
      does nothing. A settling call only matters while it is pending. */
  function Step(session: Session, s: State, ev: Event): (t: Transition)
    ensures s.isVendorWaiting ==> t.state.isVendorWaiting && t.state.otp == s.otp
    ensures ev.SubmitForm? ==> (t.effects != [] <==> !s.isVendorWaiting && SubmitEnabled(s))
    ensures ev.ResendClick? ==> (t.effects != [] <==> !s.isVendorWaiting && ResendButtonEnabled(s))
    ensures forall e | e in t.effects && e.CallVerify? :: !s.isLoading && t.state.isLoading
    ensures forall e | e in t.effects && e.CallResend? :: !s.isResending && t.state.isResending
    ensures forall e | e in t.effects && (e.CallLogin? || e.NavigateAfter?) :: s.isLoading && !t.state.isLoading
    ensures ev.TimerTick? ==> t == Transition(Tick(s), [])
    ensures ev.Input? && !s.isVendorWaiting ==> t == Transition(OnChange(s, ev.raw), [])
    ensures ev.BackClick? && !s.isVendorWaiting ==> t == Transition(s, Back(session))
    ensures ev.ReturnToLoginClick? && s.isVendorWaiting ==> t == Transition(s, [Navigate("/login?role=vendor")])
    ensures ev.SubmitForm? && !s.isVendorWaiting && SubmitEnabled(s) ==> t == BeginSubmit(session, s)
    ensures ev.VerifySettled? && s.isLoading ==> t == FinishSubmit(session, s, ev.verify, ev.login)
    ensures ev.ResendClick? && !s.isVendorWaiting && ResendButtonEnabled(s) ==> t == BeginResend(session, s)
    ensures ev.ResendSettled? && s.isResending ==> t == Transition(FinishResend(s, ev.resend), [])
    ensures t.effects == [] && !ev.TimerTick? && !ev.Input? && !ev.VerifySettled? && !ev.ResendSettled? ==> t.state == s
    ensures ev.VerifySettled? && !s.isLoading ==> t == Transition(s, [])
    ensures ev.ResendSettled? && !s.isResending ==> t == Transition(s, [])
  {
    match ev
    case Input(raw) =>
      if s.isVendorWaiting then Transition(s, []) else Transition(OnChange(s, raw), [])
    case SubmitForm =>
      if !s.isVendorWaiting && SubmitEnabled(s) then BeginSubmit(session, s) else Transition(s, [])
    case VerifySettled(verify, login) =>
      if s.isLoading then FinishSubmit(session, s, verify, login) else Transition(s, [])
    case TimerTick =>
      Transition(Tick(s), [])
    case ResendClick =>
      if !s.isVendorWaiting && ResendButtonEnabled(s) then BeginResend(session, s) else Transition(s, [])
    case ResendSettled(resend) =>
      if s.isResending then Transition(FinishResend(s, resend), []) else Transition(s, [])
    case BackClick =>
      if s.isVendorWaiting then Transition(s, []) else Transition(s, Back(session))
    case ReturnToLoginClick =>
      if s.isVendorWaiting then Transition(s, [Navigate(VendorLoginPath)]) else Transition(s, [])
  }

  /** A sequence of events from `s`, collecting every effect in order. */
  function Run(session: Session, s: State, events: seq<Event>): Transition
    decreases |events|
  {
    if |events| == 0 then Transition(s, [])
    else
      var first := Step(session, s, events[0]);
      var rest := Run(session, first.state, events[1..]);
      Transition(rest.state, first.effects + rest.effects)
  }
}

=== FILE: otp_form_properties.dfy ===
/** Properties of the OTP controller that relate several events or several
    calls: the invariant every reachable state keeps, the cooldown's
    length, the vendor-waiting screen being terminal, and the event machine
    agreeing with the whole-handler functions. */
module OtpFormProperties {
  import opened Wrappers
  import opened Text
  import opened OtpForm

  /** What holds of every state the form can reach. */
  predicate Invariant(s: State) {
    && AllDigits(s.otp)
    && |s.otp| <= OtpLength
    && s.countdown <= ResendCooldown
    && (s.isVendorWaiting ==> !s.isLoading)
  }

  lemma StepPreservesInvariant(session: Session, s: State, ev: Event)
    requires Invariant(s)
    ensures Invariant(Step(session, s, ev).state)
  {
  }

  /** Inserting text `p` at position `i` of a digits-only code, when the
      result fits the field, inserts the digits of `p` there and drops the
      rest: a paste such as "12-34" into an empty field gives "1234". */
  lemma Insertion(s: State, i: nat, p: string)
    requires AllDigits(s.otp) && i <= |s.otp| && |s.otp| + |p| <= 6
    ensures OnChange(s, s.otp[..i] + p + s.otp[i..]).otp == s.otp[..i] + KeepDigits(p) + s.otp[i..]
  {
    AllDigitsSplit(s.otp, i);
    KeepDigitsAround(s.otp[..i], p, s.otp[i..]);
  }

  /** Typing one more character after a code of fewer than six digits
      appends it when it is a digit and leaves the code alone otherwise. */
  lemma Keystroke(s: State, c: char)
    requires AllDigits(s.otp) && |s.otp| < 6
    ensures OnChange(s, s.otp + [c]).otp == if IsDigit(c) then s.otp + [c] else s.otp
  {
    Insertion(s, |s.otp|, [c]);
    assert s.otp[..|s.otp|] + [c] + s.otp[|s.otp|..] == s.otp + [c];
    assert KeepDigits([c]) == (if IsDigit(c) then [c] else []) by {
      assert [c][1..] == [];
    }
  }

  /** Verify is only ever called with the six digits on screen: a submit
      that goes through carries a full, digits-only code. */
  lemma VerifyOnlyWithFullCode(session: Session, s: State, ev: Event)
    requires Invariant(s)
    ensures forall e | e in Step(session, s, ev).effects && e.CallVerify? ::
      e.otp == s.otp && AllDigits(e.otp) && |e.otp| == 6
  {
  }

  /** Resend is only ever called once the cooldown has run out and no
      resend is pending. */
  lemma ResendOnlyAfterCooldown(session: Session, s: State, ev: Event)
    ensures forall e | e in Step(session, s, ev).effects && e.CallResend? ::
      s.countdown == 0 && !s.isResending
  {
  }

  /** Every state reached from the initial one, by any events at all, has
      a code of at most six digits and a countdown in 0..30. */
  lemma {:induction false} RunPreservesInvariant(session: Session, s: State, events: seq<Event>)
    requires Invariant(s)
    ensures Invariant(Run(session, s, events).state)
    decreases |events|
  {
    if |events| > 0 {
      StepPreservesInvariant(session, s, events[0]);
      RunPreservesInvariant(session, Step(session, s, events[0]).state, events[1..]);
    }
  }

  lemma ReachableStatesKeepInvariant(session: Session, events: seq<Event>)
    ensures AllDigits(Run(session, Initial, events).state.otp)
    ensures |Run(session, Initial, events).state.otp| <= 6
    ensures Run(session, Initial, events).state.countdown <= 30
  {
    RunPreservesInvariant(session, Initial, events);
  }

  /** Once the vendor-waiting screen is shown it stays, the code is frozen,
      and the only thing the form can still ask for is the login page. */
  lemma {:induction false} VendorWaitingIsTerminal(session: Session, s: State, events: seq<Event>)
    requires Invariant(s) && s.isVendorWaiting
    ensures Run(session, s, events).state.isVendorWaiting
    ensures Run(session, s, events).state.otp == s.otp
    ensures forall e | e in Run(session, s, events).effects :: e == Navigate("/login?role=vendor")
    decreases |events|
  {
    if |events| > 0 {
      var first := Step(session, s, events[0]);
      StepPreservesInvariant(session, s, events[0]);
      VendorWaitingIsTerminal(session, first.state, events[1..]);
    }
  }

  /** The countdown after `n` ticks: it drops by one per tick and stops at 0,
      and nothing else changes. */
  lemma {:induction false} TicksCountdown(s: State, n: nat)
    ensures Ticks(s, n) == s.(countdown := if n <= s.countdown then s.countdown - n else 0)
    decreases n
  {
    if n > 0 {
      TicksCountdown(Tick(s), n - 1);
    }
  }

  /** A fresh cooldown blocks the resend button for exactly 30 ticks. */
  lemma CooldownLastsThirtyTicks(s: State)
    requires s.countdown == 30 && !s.isResending
    ensures Ticks(s, 30).countdown == 0 && ResendButtonEnabled(Ticks(s, 30))
    ensures forall k: nat | k < 30 :: Ticks(s, k).countdown > 0 && !ResendButtonEnabled(Ticks(s, k))
  {
    TicksCountdown(s, 30);
    forall k: nat | k < 30
      ensures Ticks(s, k).countdown > 0
    {
      TicksCountdown(s, k);
    }
  }

  /** `n` timer events in a row. */
  function TimerTicks(n: nat): (events: seq<Event>)
    ensures |events| == n && forall k | 0 <= k < n :: events[k] == TimerTick
  {
    seq(n, k => TimerTick)
  }

  /** Timer events drive the mounted form's countdown exactly as `Ticks`
      does, and make no calls. */
  lemma {:induction false} RunTimerTicks(session: Session, s: State, n: nat)
    ensures Run(session, s, TimerTicks(n)) == Transition(Ticks(s, n), [])
    decreases n
  {
    if n > 0 {
      var events := TimerTicks(n);
      assert events[1..] == TimerTicks(n - 1);
      RunTimerTicks(session, Tick(s), n - 1);
      assert Step(session, s, events[0]) == Transition(Tick(s), []);
      var none: seq<Effect> := [];
      assert none + none == none;
    }
  }

  /** In the mounted form, a fresh cooldown unlocks the resend button after
      exactly 30 timer events and not before. */
  lemma CooldownUnderRun(session: Session, s: State)
    requires s.countdown == 30 && !s.isResending
    ensures ResendButtonEnabled(Run(session, s, TimerTicks(30)).state)
    ensures forall k: nat | k < 30 :: !ResendButtonEnabled(Run(session, s, TimerTicks(k)).state)
  {
    CooldownLastsThirtyTicks(s);
    RunTimerTicks(session, s, 30);
    forall k: nat | k < 30
      ensures !ResendButtonEnabled(Run(session, s, TimerTicks(k)).state)
    {
      RunTimerTicks(session, s, k);
    }
  }

  lemma RunTwo(session: Session, s: State, a: Event, b: Event)
    ensures var first := Step(session, s, a);
            var second := Step(session, first.state, b);
            Run(session, s, [a, b]) == Transition(second.state, first.effects + second.effects)
  {
    var first := Step(session, s, a);
    var second := Step(session, first.state, b);
    var events := [a, b];
    assert events[1..] == [b];
    assert [b][1..] == [];
    assert Run(session, second.state, []) == Transition(second.state, []);
    assert Run(session, first.state, [b]) == Transition(second.state, second.effects + []);
    assert second.effects + [] == second.effects;
  }

  /** Pressing an enabled submit button and then having Verify (and Login)
      settle, with nothing in between, is one run of the submit handler. */
  lemma SubmitEventsMatchHandler(session: Session, s: State, verify: VerifyOutcome, login: LoginOutcome)
    requires !s.isVendorWaiting && SubmitEnabled(s)
    ensures Run(session, s, [SubmitForm, VerifySettled(verify, login)]) == Submit(session, s, verify, login)
  {
    RunTwo(session, s, SubmitForm, VerifySettled(verify, login));
    var begun := Step(session, s, SubmitForm);
    assert begun == BeginSubmit(session, s);
    assert Step(session, begun.state, VerifySettled(verify, login))
        == FinishSubmit(session, begun.state, verify, login);
  }

  /** Likewise for an enabled resend button and the Resend call settling. */
  lemma ResendEventsMatchHandler(session: Session, s: State, resend: ResendOutcome)
    requires !s.isVendorWaiting && ResendButtonEnabled(s)
    ensures Run(session, s, [ResendClick, ResendSettled(resend)]) == Resend(session, s, resend)
  {
    RunTwo(session, s, ResendClick, ResendSettled(resend));
    var begun := Step(session, s, ResendClick);
    assert begun == BeginResend(session, s);
    var settled := Step(session, begun.state, ResendSettled(resend));
    assert settled == Transition(FinishResend(begun.state, resend), []);
    assert begun.effects + [] == begun.effects;
  }

  /** One more event at the end of a run. */
  lemma {:induction false} RunSnoc(session: Session, s: State, events: seq<Event>, ev: Event)
    ensures var mid := Run(session, s, events);
            var last := Step(session, mid.state, ev);
            Run(session, s, events + [ev]) == Transition(last.state, mid.effects + last.effects)
    decreases |events|
  {
    var mid := Run(session, s, events);
    var last := Step(session, mid.state, ev);
    if |events| == 0 {
      assert events + [ev] == [ev];
      RunTwoBase(session, s, ev);
    } else {
      var first := Step(session, s, events[0]);
      var full := events + [ev];
      assert full[0] == events[0] && full[1..] == events[1..] + [ev];
      var inner := Run(session, first.state, events[1..]);
      var rest := Run(session, first.state, events[1..] + [ev]);
      assert Run(session, s, full) == Transition(rest.state, first.effects + rest.effects);
      assert mid == Transition(inner.state, first.effects + inner.effects);
      RunSnoc(session, first.state, events[1..], ev);
      assert rest == Transition(last.state, inner.effects + last.effects);
      AppendAssociates(first.effects, inner.effects, last.effects);
    }
  }

  lemma AppendAssociates<T>(a: seq<T>, b: seq<T>, c: seq<T>)
    ensures a + (b + c) == (a + b) + c
  {
  }

  /** A run of one event is that event's step. */
  lemma RunTwoBase(session: Session, s: State, ev: Event)
    ensures Run(session, s, [ev]) == Step(session, s, ev)
  {
    var last := Step(session, s, ev);
    assert [ev][1..] == [];
    assert last.effects + [] == last.effects;
  }

  /** While Verify is pending, no other event (typing, ticks, a resend and
      its answer, a second click, Back) ends the loading state. */
  lemma {:induction false} PendingVerifySurvives(session: Session, s: State, events: seq<Event>)
    requires s.isLoading
    requires forall i | 0 <= i < |events| :: !events[i].VerifySettled?
    ensures Run(session, s, events).state.isLoading
    decreases |events|
  {
    if |events| > 0 {
      var first := Step(session, s, events[0]);
      assert first.state.isLoading;
      assert forall i | 0 <= i < |events[1..]| :: events[1..][i] == events[i + 1];
      PendingVerifySurvives(session, first.state, events[1..]);
    }
  }

  /** Whatever happens between a submit and its answer, the answer is
      handled as `FinishSubmit` on the state it finds, after which the form
      is no longer loading. */
  lemma InterleavedVerifySettles(session: Session, s: State, events: seq<Event>,
                                 verify: VerifyOutcome, login: LoginOutcome)
    requires s.isLoading
    requires forall i | 0 <= i < |events| :: !events[i].VerifySettled?
    ensures var mid := Run(session, s, events);
            var settled := FinishSubmit(session, mid.state, verify, login);
            Run(session, s, events + [VerifySettled(verify, login)])
              == Transition(settled.state, mid.effects + settled.effects)
    ensures !Run(session, s, events + [VerifySettled(verify, login)]).state.isLoading
  {
    PendingVerifySurvives(session, s, events);
    RunSnoc(session, s, events, VerifySettled(verify, login));
  }

  /** A resend that fails while Verify is pending does not stop the login:
      the submit still logs in and redirects to the user dashboard. */
  lemma LoginAfterInterleavedResend(email: string)
    ensures var session := Session(email, User, false);
            var s := State("123456", "", false, false, false, 0);
            var response := VerifyResponse("Email verified", Some("t1"));
            var t := Run(session, s, [SubmitForm, ResendClick, ResendSettled(ResendRejected("down")),
                                      VerifySettled(Verified(response), LoginSucceeded)]);
            && t.effects == [CallVerify(email, "123456", User), CallResend(email, User),
                             CallLogin(response), NavigateAfter(500, "/user/dashboard")]
            && t.state == State("123456", "down", false, false, false, 0)
  {
    var session := Session(email, User, false);
    var s := State("123456", "", false, false, false, 0);
    var response := VerifyResponse("Email verified", Some("t1"));
    assert "Email verified" == "Email " + "verified" + "";
    IncludedIgnoringCase("Email ", "verified", "");
    assert Classify(User, response) == LoginAttempt;
    var settle := VerifySettled(Verified(response), LoginSucceeded);
    var a := Step(session, s, SubmitForm);
    assert a == BeginSubmit(session, s);
    var pending := [ResendClick, ResendSettled(ResendRejected("down"))];
    var all := [SubmitForm, ResendClick, ResendSettled(ResendRejected("down")), settle];
    assert all[1..] == pending + [settle];
    RunTwo(session, a.state, ResendClick, ResendSettled(ResendRejected("down")));
    InterleavedVerifySettles(session, a.state, pending, Verified(response), LoginSucceeded);
  }

  /** A verification that rejects, or resolves with neither a success word
      nor a token. */
  predicate IsFailedVerification(verify: VerifyOutcome) {
    verify.VerifyRejected? || (!ReportsSuccess(verify.response.message) && !HasToken(verify.response))
  }

  /** However many times verification fails, the form never logs in, never
      redirects, and never shows the vendor-waiting screen. */
  lemma {:induction false} FailedVerificationsNeverLogIn(session: Session, s: State, events: seq<Event>)
    requires !s.isVendorWaiting
    requires forall i | 0 <= i < |events| && events[i].VerifySettled? :: IsFailedVerification(events[i].verify)
    ensures !Run(session, s, events).state.isVendorWaiting
    ensures forall e | e in Run(session, s, events).effects :: !e.CallLogin? && !e.NavigateAfter?
    decreases |events|
  {
    if |events| > 0 {
      var first := Step(session, s, events[0]);
      assert forall i | 0 <= i < |events[1..]| :: events[1..][i] == events[i + 1];
      FailedVerificationsNeverLogIn(session, first.state, events[1..]);
    }
  }

  // ---------------------------------------------------------------------
  // Worked responses

  lemma UserLoginExample()
    ensures Classify(User, VerifyResponse("Email verified successfully", Some("t1"))) == LoginAttempt
  {
    assert "Email verified successfully" == "Email " + "verified" + " successfully";
    IncludedIgnoringCase("Email ", "verified", " successfully");
  }

  lemma VendorPendingExample()
    ensures Classify(Vendor, VerifyResponse("Vendor verified, awaiting admin approval", Some("t1")))
         == VendorPending
  {
    assert "Vendor verified, awaiting admin approval" == "Vendor verified, " + "awaiting" + " admin approval";
    IncludedIgnoringCase("Vendor verified, ", "awaiting", " admin approval");
  }

  lemma AwaitingMessageLacksSuccess()
    ensures !ReportsSuccess("Awaiting admin approval")
  {
    AwaitingMessageLacksLetter();
    NotIncludedIgnoringCase("Awaiting admin approval", "verified", 'e');
    NotIncludedIgnoringCase("Awaiting admin approval", "success", 'e');
  }

  lemma AwaitingMessageLacksLetter()
    ensures 'e' !in "Awaiting admin approval" && 'E' !in "Awaiting admin approval"
  {
  }

  /** A vendor message that only says "awaiting", without a token, is a
      plain failure: the failure test runs first. */
  lemma AwaitingWithoutSuccessIsFailure()
    ensures Classify(Vendor, VerifyResponse("Awaiting admin approval", None))
         == Failure("Awaiting admin approval")
  {
    AwaitingMessageLacksSuccess();
  }

  lemma InvalidCodeLacksSuccess()
    ensures !ReportsSuccess("Invalid code")
  {
    NotIncludedIgnoringCase("Invalid code", "verified", 'r');
    NotIncludedIgnoringCase("Invalid code", "success", 's');
  }

  lemma InvalidCodeExample(role: Role)
    ensures Classify(role, VerifyResponse("Invalid code", None)) == Failure("Invalid code")
  {
    InvalidCodeLacksSuccess();
  }

  /** The success test is a bare substring test, so a message saying the
      verification was unsuccessful, with no token, is read as a success
      without a token rather than as a failure. */
  lemma UnsuccessfulReadAsSuccess()
    ensures Classify(User, VerifyResponse("Verification unsuccessful", None)) == SuccessNoToken
  {
    assert "Verification unsuccessful" == "Verification un" + "success" + "ful";
    IncludedIgnoringCase("Verification un", "success", "ful");
  }
}

=== FILE: text.dfy ===
/** Character and string helpers shared by both components: ASCII digits,
    ASCII lower-casing, and substring search. */
module Text {

  predicate IsDigit(c: char) {
    '0' <= c <= '9'
  }

  predicate AllDigits(s: string) {
    forall i | 0 <= i < |s| :: IsDigit(s[i])
  }

  /** The characters of `s` that are digits, in order: what
      `value.replace(/\D/g, "")` leaves of a string. */
  function KeepDigits(s: string): (r: string)
    ensures AllDigits(r)
    ensures |r| <= |s|
    ensures !AllDigits(s) ==> |r| < |s|
    ensures r == s <==> AllDigits(s)
  {
    if |s| == 0 then ""
    else
      var rest := KeepDigits(s[1..]);
      assert !AllDigits(s) && IsDigit(s[0]) ==> !AllDigits(s[1..]) by {
        if !AllDigits(s) && IsDigit(s[0]) {
          var i :| 0 <= i < |s| && !IsDigit(s[i]);
          assert !IsDigit(s[1..][i - 1]);
        }
      }
      (if IsDigit(s[0]) then [s[0]] else "") + rest
  }

  predicate IsUpper(c: char) {
    'A' <= c <= 'Z'
  }

  /** ASCII lower-casing of one character; everything else is unchanged. */
  function LowerChar(c: char): (d: char)
    ensures !IsUpper(d)
    ensures IsUpper(c) ==> d as int == c as int + 32
    ensures !IsUpper(c) ==> d == c
  {
    if IsUpper(c) then (c as int + 32) as char else c
  }

  predicate IsLower(s: string) {
    forall i | 0 <= i < |s| :: !IsUpper(s[i])
  }

  function ToLower(s: string): (r: string)
    ensures |r| == |s|
    ensures IsLower(r)
    ensures IsLower(s) ==> r == s
  {
    seq(|s|, i requires 0 <= i < |s| => LowerChar(s[i]))
  }

  /** `w` occurs in `s` starting at index `i`. */
  predicate OccursAt(s: string, w: string, i: int) {
    0 <= i && i + |w| <= |s| && s[i..i + |w|] == w
  }

  /** Substring test, as `String.includes` / `String.contains`. */
  predicate Contains(s: string, w: string) {
    exists i | 0 <= i <= |s| - |w| :: OccursAt(s, w, i)
  }

  /** Case-insensitive substring test as the source writes it:
      `s.toLowerCase().includes(w)` for a lower-case `w`. */
  predicate IncludesIgnoringCase(s: string, w: string) {
    Contains(ToLower(s), w)
  }

  /** Java's `String.equalsIgnoreCase`, restricted to ASCII letters. */
  predicate EqualsIgnoreCase(a: string, b: string) {
    |a| == |b| && forall i | 0 <= i < |a| :: LowerChar(a[i]) == LowerChar(b[i])
  }

  /** Index of the last occurrence of `c` in `s`, or -1: `String.lastIndexOf`. */
  function LastIndexOf(s: string, c: char): (r: int)
    ensures -1 <= r < |s|
    ensures r == -1 <==> c !in s
    ensures 0 <= r ==> s[r] == c && c !in s[r + 1..]
  {
    if |s| == 0 then -1
    else if s[|s| - 1] == c then |s| - 1
    else LastIndexOf(s[..|s| - 1], c)
  }

  /** Two strings are equal ignoring case exactly when their lower-case
      forms are equal. */
  lemma {:induction false} EqualsIgnoreCaseIffLowerEqual(a: string, b: string)
    ensures EqualsIgnoreCase(a, b) <==> ToLower(a) == ToLower(b)
  {
    if |a| == |b| {
      if ToLower(a) == ToLower(b) {
        forall i | 0 <= i < |a| ensures LowerChar(a[i]) == LowerChar(b[i]) {
          assert ToLower(a)[i] == ToLower(b)[i];
        }
      }
      if EqualsIgnoreCase(a, b) {
        assert forall i | 0 <= i < |a| :: ToLower(a)[i] == ToLower(b)[i];
      }
    }
  }

  /** Lower-casing distributes over concatenation. */
  lemma {:induction false} ToLowerAppend(a: string, b: string)
    ensures ToLower(a + b) == ToLower(a) + ToLower(b)
  {
    if |a| == 0 {
      assert a + b == b;
    } else {
      assert (a + b)[1..] == a[1..] + b;
      ToLowerAppend(a[1..], b);
    }
  }

  /** The digit filter distributes over concatenation: each keystroke's
      characters are filtered independently of the rest. */
  lemma {:induction false} KeepDigitsAppend(a: string, b: string)
    ensures KeepDigits(a + b) == KeepDigits(a) + KeepDigits(b)
  {
    if |a| == 0 {
      assert a + b == b;
    } else {
      var head := if IsDigit(a[0]) then [a[0]] else "";
      assert (a + b)[0] == a[0];
      assert (a + b)[1..] == a[1..] + b;
      KeepDigitsAppend(a[1..], b);
      calc {
        KeepDigits(a + b);
        head + KeepDigits(a[1..] + b);
        head + (KeepDigits(a[1..]) + KeepDigits(b));
        (head + KeepDigits(a[1..])) + KeepDigits(b);
        KeepDigits(a) + KeepDigits(b);
      }
    }
  }

  /** Both sides of a split of an all-digit text are all digits. */
  lemma AllDigitsSplit(s: string, i: nat)
    requires AllDigits(s) && i <= |s|
    ensures AllDigits(s[..i]) && AllDigits(s[i..])
  {
    assert forall k | 0 <= k < |s[i..]| :: s[i..][k] == s[i + k];
  }

  /** Filtering text pasted between two runs of digits keeps the runs and
      the pasted digits, in order. */
  lemma KeepDigitsAround(before: string, p: string, after: string)
    requires AllDigits(before) && AllDigits(after)
    ensures KeepDigits(before + p + after) == before + KeepDigits(p) + after
  {
    KeepDigitsAppend(before + p, after);
    KeepDigitsAppend(before, p);
  }

  /** A word with a character the text lacks does not occur in it. */
  lemma MissingCharNotContained(s: string, w: string, c: char)
    requires c in w && c !in s
    ensures !Contains(s, w)
  {
  }

  /** A word occurs in a text of the form `a + w + b`. */
  lemma ContainedInMiddle(a: string, w: string, b: string)
    ensures Contains(a + w + b, w)
  {
    assert (a + w + b)[|a|..|a| + |w|] == w;
    assert OccursAt(a + w + b, w, |a|);
  }

  /** A lower-case word occurs, ignoring case, in any text built around it. */
  lemma IncludedIgnoringCase(a: string, w: string, b: string)
    requires IsLower(w)
    ensures IncludesIgnoringCase(a + w + b, w)
  {
    ToLowerAppend(a + w, b);
    ToLowerAppend(a, w);
    ContainedInMiddle(ToLower(a), w, ToLower(b));
  }

  /** A word holding a lower-case letter that the text lacks in either
      case does not occur in it, ignoring case. */
  lemma NotIncludedIgnoringCase(s: string, w: string, c: char)
    requires 'a' <= c <= 'z' && c in w
    requires c !in s && (c as int - 32) as char !in s
    ensures !IncludesIgnoringCase(s, w)
  {
    MissingCharNotContained(ToLower(s), w, c);
  }
}

=== FILE: wrappers.dfy ===
/** The wrapper types used by the model: an optional value (a
    nullable reference or an absent field), a value-or-error result (a call
    that returns or throws), and a pass-or-fail outcome (a void call that
    may throw). */
module Wrappers {

  datatype Option<+T> = None | Some(value: T)

  datatype Result<+R, +E> = Ok(value: R) | Err(error: E)

  datatype Outcome<+E> = Pass | Fail(error: E)
}
